=== FILE: README.md ===
# HTTP connector core, modelled in Dafny

This project models the request-construction and response-normalisation
core of a small Java HTTP helper: the `Request` value with its defaulting
constructors, and the `Connector` operations that turn a request and a base
address into a response or a failure. The model covers parameter encoding
(`constructURLParams`), URL assembly (`constructURL`), the scheme rewrite
and dispatch decisions of `performRequest`, reply-header extraction
(`getHeaders`), and stream draining (`inputStreamToString`). Everything is
a pure function over strings, sequences and small datatypes.

Modules:

- `Wrappers`: `Option` for Java's nullable references and `Result` for
  thrown exceptions.
- `Strings`: prefix tests, and `Join`/`Split` with the lemma that splitting
  undoes joining.
- `FormEncoding`: `URLEncoder.encode` as the form encoding of section
  17.13.4.1 of HTML 4.01 with UTF-8 bytes. A decoder is its partner, and
  `DecodeEncode` proves the pair round-trips.
- `Requests`: `Request.java`, covering the `METHOD` and `PROTOCOL` enums,
  the default timeouts 3500 and 6000, and the four constructors.
- `UrlParams`: `constructURLParams`, written as the Java loop with its
  `sep` variable. The value encoder is a parameter, and the connector
  passes `FormEncoding.Encode`. A parameter-string parser is its partner.
  `ParamsRoundTrip` proves that parsing the result gives back exactly the
  non-null entries, in order, for any encoder that its decoder undoes and
  that never writes `&`.
- `Urls`: `constructURL`, the address/query split, and the
  `replaceFirst("^https?", protocol.name())` scheme rewrite.
- `Headers`: `getHeaders` as the Java index loop. Its reference is "the
  last field carrying each key", taken over the maximal run of keyed
  fields.
- `Streams`: `inputStreamToString` as the Java loop. Its reference is the
  text of the lines the loop reads, characterised by `LinesRead`.
- `Connector`: `performRequest`, split into connection setup (`Prepare`)
  and reply handling (`Complete`). The network is a function parameter
  from what is sent (`Outgoing`) to what comes back (`Exchange`).
- `Scenarios`: concrete requests and replies worked out on the model.

Several behaviours of the code are easy to misread; the model follows the
code:

- The scheme rewrite is case-sensitive and anchored at position 0. Its
  replacement is the upper-case enum name (`HTTP`/`HTTPS`), not a
  lower-case scheme. A base written `HTTP://…` is never rewritten, so the
  declared protocol does not always win (`Urls.UpperCaseSchemeKept`,
  `Urls.RewriteSchemeSettles`).
- `constructURL` only checks that the parameter string is non-null, and
  `constructURLParams` never returns null. So a GET with no usable
  parameter still gets a separator appended: `http://x` becomes
  `http://x?` (`Scenarios.ConstructURLExamples`).
- On a non-200 status, the code calls `inputStreamToString` on
  `getErrorStream()` without a null check. A null error stream therefore
  ends the call with a `NullPointerException`. The model reports this as
  the `NullErrorStream` error rather than falling through. The platform
  returns no error stream for statuses below 400, so every 201, 204 or
  3xx reply ends this way, even with readable content
  (`Connector.NoErrorStreamFails`, `Scenarios.NoContentExample`).
- The Javadoc of `performRequest` (Connector.java line 32, and of the XML
  and JSON wrappers at lines 117, 135 and 148) says `null` is returned
  when there is no base URL. The code throws `Exception("Base URL is
  Null")` instead (lines 41-44), and the model fails with
  `ConfigurationError` (`Connector.PerformRequest`).

## Model

| member | source | states |
|---|---|---|
| `FormEncoding.Encode` | src/com/ccvb/utils/connection/Connector.java:207 | the encoded value uses only letters, digits, `.-*_`, `+` and `%`, so it never contains `&`, `=` or `?` |
| `FormEncoding.DecodeEncode` | src/com/ccvb/utils/connection/Connector.java:207 | form-decoding the encoding of any string of Unicode scalar values gives that string back |
| `FormEncoding.EncodeInjective` | src/com/ccvb/utils/connection/Connector.java:207 | distinct strings of Unicode scalar values have distinct encodings |
| `Requests.NewRequest` | src/com/ccvb/utils/connection/Request.java:46-54 | method, protocol and both timeouts are stored as given, without validation; a null parameter or header map becomes empty, and a non-null one is kept |
| `Requests.NewRequestWithParameters` | src/com/ccvb/utils/connection/Request.java:64-67 | the five-argument constructor gives empty headers and the given parameters, or empty ones when null |
| `Requests.NewRequestWithTimeouts` | src/com/ccvb/utils/connection/Request.java:76-79 | the four-argument constructor gives empty parameters and empty headers |
| `Requests.NewDefaultRequest` | src/com/ccvb/utils/connection/Request.java:87-90 | the two-argument constructor gives timeouts 3500 and 6000, and empty parameters and headers |
| `Requests.ShortConstructorsDelegate` | src/com/ccvb/utils/connection/Request.java:64-90 | the five-argument constructor is the six-argument one with null headers, the four-argument one is the six-argument one with null maps, and the two-argument one is the four-argument one with timeouts 3500 and 6000 |
| `Requests.NullAndEmptyAgree` | src/com/ccvb/utils/connection/Request.java:52-53 | a request built from null maps equals one built from empty maps |
| `UrlParams.UsableEmpty` | src/com/ccvb/utils/connection/Connector.java:201-214 | no entry contributes exactly when every value is null |
| `UrlParams.PiecesOfUsable` | src/com/ccvb/utils/connection/Connector.java:201-214 | each entry with a value contributes exactly `key=encode(value)` with the key unencoded, in iteration order |
| `UrlParams.ConstructURLParams` | src/com/ccvb/utils/connection/Connector.java:194-218 | the result is the contributions of the non-null entries joined by single `&`s |
| `UrlParams.ConstructURLParamsEmpty` | src/com/ccvb/utils/connection/Connector.java:196-217 | the result is empty exactly when no entry has a value |
| `UrlParams.ParamsRoundTrip` | src/com/ccvb/utils/connection/Connector.java:196-217 | when keys contain no `&` or `=` and the decoder undoes an encoder that never writes `&`, parsing the result yields exactly the non-null entries, in order, so there is one `&` between consecutive entries and none leading or trailing |
| `UrlParams.ConstructURLParamsAppend` | src/com/ccvb/utils/connection/Connector.java:201-214 | the string for two concatenated entry lists is their strings joined by `&`, so entries appear in iteration order |
| `Urls.ConstructURL` | src/com/ccvb/utils/connection/Connector.java:169-186 | the separator is `?` when the base has no `?`, `&` when it has one but does not end with it, and nothing when it ends with `?`; the base is a prefix of the result even when the parameter string is empty |
| `Urls.ConstructURLQuery` | src/com/ccvb/utils/connection/Connector.java:169-186 | appending never changes the address part before the first `?`; the query becomes the parameter string, or the base query followed by `&` (or nothing after a trailing `?`) and the parameter string |
| `Urls.SchemeMatch` | src/com/ccvb/utils/connection/Connector.java:46 | `^https?` matches 5 characters exactly when the base starts with `https`, 4 when it starts with `http` but not `https`, and nothing otherwise |
| `Urls.RewriteScheme` | src/com/ccvb/utils/connection/Connector.java:46 | a leading `https`, otherwise a leading `http`, is replaced by the protocol's enum name; the rest is untouched, and any other base is unchanged |
| `Urls.RewriteSchemeSettles` | src/com/ccvb/utils/connection/Connector.java:46 | after one rewrite no later rewrite changes the address, whatever protocol it asks for |
| `Urls.UpperCaseSchemeKept` | src/com/ccvb/utils/connection/Connector.java:46 | a base whose scheme is written upper case is never rewritten |
| `Urls.RewriteSchemeWins` | src/com/ccvb/utils/connection/Connector.java:46 | a lower-case `http`/`https` scheme becomes the declared protocol's name and the text after it is kept |
| `Headers.Start` | src/com/ccvb/utils/connection/Connector.java:240 | scanning starts at index 1 exactly when key 0 is null |
| `Headers.Run` | src/com/ccvb/utils/connection/Connector.java:241-251 | the visited fields are the longest run of keyed fields from the start index, ending at the first null key |
| `Headers.GetHeaders` | src/com/ccvb/utils/connection/Connector.java:238-252 | a key is recorded exactly when a visited field carries it, with the value of the last such field; no null key is ever recorded |
| `Headers.HeadersIgnoreAfterNull` | src/com/ccvb/utils/connection/Connector.java:243-247 | fields after the first null key past the start have no effect on the result |
| `Headers.PseudoFieldSkipped` | src/com/ccvb/utils/connection/Connector.java:240 | a keyless field at index 0 is skipped and the scan continues from the first field after it, so a second keyless field ends it at once |
| `Streams.FirstNotReady` | src/com/ccvb/utils/connection/Connector.java:270-273 | locates the first line after which `ready()` is false: all earlier lines were followed by ready |
| `Streams.LinesRead` | src/com/ccvb/utils/connection/Connector.java:267-274 | the loop reads lines up to and including the first not-ready one, or to end of stream, or up to the failing read, whichever comes first |
| `Streams.InputStreamToString` | src/com/ccvb/utils/connection/Connector.java:260-282 | the result is the text of exactly the lines read, concatenated with no separator |
| `Streams.DrainIsPrefix` | src/com/ccvb/utils/connection/Connector.java:262-281 | the drained text is always a prefix of the whole stream's text |
| `Streams.DrainAllWhenAlwaysReady` | src/com/ccvb/utils/connection/Connector.java:267-274 | a reader that is always ready and never fails is drained completely |
| `Streams.DrainStopsAtFailure` | src/com/ccvb/utils/connection/Connector.java:277-281 | an I/O error yields the text accumulated before it, not a failure |
| `Streams.DrainStopsWhenNotReady` | src/com/ccvb/utils/connection/Connector.java:270-273 | draining ends after the first not-ready line, and later lines are lost |
| `Connector.ResolvedURL` | src/com/ccvb/utils/connection/Connector.java:46-52 | the address opened starts with the rewritten base and has the same part before the first `?`; for a GET its query is exactly the base's query followed by the parameter string, joined by `&` unless the base already ends in `?` (a bare `?` and the parameter string when the base has no query), which fixes the whole address; for any other method it is the rewritten base alone |
| `Connector.Prepare` | src/com/ccvb/utils/connection/Connector.java:46-73 | the connection opens the resolved URL with caching off, the request's timeouts, its headers plus `Accept-Encoding: gzip` and its method name; a form content type and the parameter string as body are set exactly for POST and PUT |
| `Connector.Decoded` | src/com/ccvb/utils/connection/Connector.java:100-104 | a stream is read through gzip decompression exactly when gzip is declared; when the `GZIPInputStream` constructor throws, the call fails with that exception's message |
| `Connector.ErrorMessage` | src/com/ccvb/utils/connection/Connector.java:86-91 | a null error stream fails with `NullErrorStream`; otherwise the error text is the drained text of the error stream, decompressed when the reply declares gzip, and a failed decompression is a transport error |
| `Connector.OpenContent` | src/com/ccvb/utils/connection/Connector.java:98-104 | an input stream that throws fails with its cause; a readable input stream always yields its decoded content: the plain stream, or the decompressed one exactly when the reply declares gzip |
| `Connector.Complete` | src/com/ccvb/utils/connection/Connector.java:77-113 | a remote failure happens exactly when the status is not 200 and the error body is non-empty, and its message is that body; a failure reading the error body or opening the content is passed on unchanged; status 200 fails only on transport errors; a response keeps the URL, status and extracted headers |
| `Connector.PerformRequest` | src/com/ccvb/utils/connection/Connector.java:39-114 | a configuration error happens exactly when the base URL is empty or null; a refused exchange fails with its own cause; an answered one is handled by `Complete` on the resolved URL; a response carries the resolved URL |
| `Connector.PerformRequestSucceeds` | src/com/ccvb/utils/connection/Connector.java:39-114 | the call returns a response exactly when the base is usable, the exchange is answered, the status is 200 or the error body is empty, and the content stream opens |
| `Connector.CompleteNeverBlamesConfiguration` | src/com/ccvb/utils/connection/Connector.java:84-104 | once a reply is in hand, every failure is a remote error, a null error stream or a transport error, never a configuration error |
| `Connector.EmptyBaseFailsFirst` | src/com/ccvb/utils/connection/Connector.java:41-44 | with an empty or null base URL the outcome does not depend on the network at all |
| `Connector.RemoteErrorCarriesBody` | src/com/ccvb/utils/connection/Connector.java:84-96 | a non-200 reply with a non-empty error body fails with exactly that body as message |
| `Connector.EmptyErrorBodyFallsThrough` | src/com/ccvb/utils/connection/Connector.java:84-98 | a non-200 reply with an empty error body is handled like a 200 reply, keeping its own status |
| `Connector.NoErrorStreamFails` | src/com/ccvb/utils/connection/Connector.java:84-91 | any non-200 reply without an error stream fails with `NullErrorStream`, whatever its content |
| `Connector.GzipChosenByContentEncoding` | src/com/ccvb/utils/connection/Connector.java:98-108 | the content is the decompressed stream exactly when the content encoding equals `gzip`, compared case-sensitively |
| `Connector.FormEncodingInvertible` | src/com/ccvb/utils/connection/Connector.java:207 | form decoding undoes form encoding, and form encoding never writes `&`, so the parameter round trip applies to the encoder the connector uses |
| `Connector.GetSendsParametersInQuery` | src/com/ccvb/utils/connection/Connector.java:46-52 | for a GET, the address part is the rewritten base, the query reads back to exactly the non-null parameters, and there is no body |
| `Connector.BodySendsParametersAsForm` | src/com/ccvb/utils/connection/Connector.java:65-73 | for POST and PUT, the URL is the rewritten base and the form body reads back to exactly the non-null parameters |
| `Connector.DeleteDropsParameters` | src/com/ccvb/utils/connection/Connector.java:49-73 | DELETE sends its parameters neither in the URL nor as a body |
| `Scenarios.ConstructURLExamples` | src/com/ccvb/utils/connection/Connector.java:169-186 | the three separator cases, and the trailing `?` for an empty parameter string |
| `Scenarios.ExampleParams` | src/com/ccvb/utils/connection/Connector.java:194-218 | for any encoder, a null value is skipped and keys are written unencoded: `a=enc(1)&c=enc(x y&)` |
| `Scenarios.ConstructURLParamsExample` | src/com/ccvb/utils/connection/Connector.java:194-218 | a null value is skipped, and a value with a space and `&` is encoded as `x+y%26` |
| `Scenarios.EncodeExample` | src/com/ccvb/utils/connection/Connector.java:207 | `x y&` is encoded as `x+y%26` |
| `Scenarios.SchemeRewriteExample` | src/com/ccvb/utils/connection/Connector.java:46 | `http://host/path` with HTTPS resolves to `HTTPS://host/path` |
| `Scenarios.SchemeDowngradeExample` | src/com/ccvb/utils/connection/Connector.java:46 | `https://host/path` with HTTP resolves to `HTTP://host/path` |
| `Scenarios.NotFoundExamples` | src/com/ccvb/utils/connection/Connector.java:84-98 | a 404 (whose input stream throws) with body `not found` fails with that message; with an empty body it fails with the input stream's exception; with a null error stream it fails with `NullErrorStream` |
| `Scenarios.NoContentExample` | src/com/ccvb/utils/connection/Connector.java:84-91 | a 204 reply with readable content but no error stream fails with `NullErrorStream` |
| `Scenarios.GetHeadersExample` | src/com/ccvb/utils/connection/Connector.java:238-252 | the status-line pseudo-field is skipped and the last duplicate wins |
| `Scenarios.DrainExamples` | src/com/ccvb/utils/connection/Connector.java:260-282 | lines are glued together, a not-ready reader truncates, and an I/O error keeps the prefix |

## Left out

- Network I/O is not modelled: opening the connection, `connect()`, the
  output stream and the timeouts' run-time effect. The transport is a
  function parameter. Its failures (malformed URL, connect and read errors,
  `getInputStream()` throwing for error statuses) arrive as
  `Refused`/`Failure` values. So does the `IllegalArgumentException` that
  `setConnectTimeout`/`setReadTimeout` (Connector.java lines 59-60) throw
  for a negative timeout, which `Request` accepts without checking.
- Gzip decompression is not modelled. A reply stream is given both as read
  directly and as read through `GZIPInputStream`, the latter possibly as
  the message of the exception its constructor throws.
- `URLEncoder.encode` is modelled assuming the platform's default charset
  is UTF-8.
- `performXMLRequest`, `performJSONArrayRequest` and
  `performJSONObjectRequest` are not modelled. They only hand the body to
  external XML and JSON parsers, which are not part of this model.
- Logging (`Log.log`) and `Date`-based request timing have no effect on
  results and are not modelled.
- Closing the reader and ownership of the content stream are not
  modelled.
- `HashMap` iteration order is not modelled. Parameters and headers are
  explicit ordered sequences, and properties are stated relative to that
  order.
- A null key in the parameter or header map is not modelled; keys are
  strings. For a parameter, Java would write such a key as `null`
  (Connector.java line 208). For a header, `addRequestProperty` throws a
  `NullPointerException` (line 233).
- A null `method` or `protocol` is not modelled; both are enum values.
  `Request` accepts null for either, and `performRequest` then throws a
  `NullPointerException` at line 46 (protocol) or line 64 (method).
- `Request` keeps the caller's parameter and header maps by reference,
  and its fields are public and mutable. The model's `Request` is an
  immutable value, so aliasing and later mutation are not modelled.
- A null header value passed to `addRequestProperty` is not modelled;
  header values are strings.
- `addHeaders` is modelled as the list of `addRequestProperty` calls,
  followed by `Accept-Encoding: gzip`. How the platform merges that list
  with the later `setRequestProperty("Content-Type", …)` is not modelled.
- `UrlParams.ConstructURLParams`: takes a non-null map, so the
  `params != null` guard is not modelled. Every constructor normalises a
  null map to an empty one.
- `FormEncoding.DecodeEncode`: holds for well-formed UTF-16 only. A Dafny
  `char` is a Unicode scalar value. A Java `String` can hold an unpaired
  surrogate, which `URLEncoder.encode` writes as the replacement `?`
  (`%3F`), so such a string does not come back.
- `FormEncoding.EncodeInjective`: holds for well-formed UTF-16 only. An
  unpaired surrogate such as `"\uD800"` and the string `"?"` both encode
  to `%3F`.
- `Connector.EmptyErrorBodyFallsThrough`: the fall-through produces a
  response only when the platform returns both a non-null, empty error
  stream and a readable input stream. `getInputStream()` throws for
  statuses of 400 and above, and that exception is then the outcome
  (`Scenarios.NotFoundExamples`).
- `Urls.ConstructURL`: the `params != null` branch is modelled with
  `Option`, but `performRequest` always passes a present string.
- `Streams.InputStreamToString`: an exception from `ready()` after line `i`
  is modelled as a failing read number `i + 1`. Both return the text of
  lines `0..i`.
- `Connector.GetSendsParametersInQuery`: stated only for a base without
  `?` and keys free of `&` and `=`. For other bases,
  `Urls.ConstructURLQuery` describes the query.

=== FILE: connector.dfy ===
/** Request execution: `Connector.performRequest`. The network is a
    parameter: `transport` maps what the connection is told before
    `connect()` to what comes back. Gzip decompression is abstract: a reply
    stream is given both as read directly and as read through a
    `GZIPInputStream`. */
module Connector {
  import opened Wrappers
  import opened Strings
  import opened Requests
  import FormEncoding
  import opened UrlParams
  import opened Urls
  import opened Headers
  import opened Streams

  /** Why a request fails. */
  datatype Error =
    | ConfigurationError(message: string)  // empty or null base URL
    | RemoteError(message: string)         // non-200 status with a non-empty error body
    | TransportError(cause: string)        // an exception of the connection or its streams
    | NullErrorStream                      // non-200 status and `getErrorStream()` is null

  const BaseUrlIsNull: string := "Base URL is Null"
  const FormContentType: string := "application/x-www-form-urlencoded"

  /** What the connection is told before `connect()`. */
  datatype Outgoing = Outgoing(
    url: string,                  // the address opened
    verb: string,                 // `setRequestMethod`
    connectTimeout: Int32,
    readTimeout: Int32,
    useCaches: bool,
    properties: seq<Header>,      // `addRequestProperty` calls, in order
    contentType: Option<string>,  // `setRequestProperty("Content-Type", ...)`
    body: Option<string>)         // the text written to the output stream

  /** A reply stream read directly, and read through a `GZIPInputStream`
      (a failure carrying the exception's message when that constructor
      throws: a bad magic number, an unsupported compression method, or a
      header cut short). */
  datatype Stream = Stream(plain: Reader, gunzipped: Result<Reader, string>)

  /** What the connection reports after `connect()`. The input stream is a
      failure when `getInputStream()` throws. */
  datatype Reply = Reply(
    code: Int32,
    headerTable: seq<HeaderField>,
    contentEncoding: Option<string>,
    errorStream: Option<Stream>,
    inputStream: Result<Stream, string>)

  /** The outcome of the network exchange: an exception while opening,
      writing or connecting, or a reply. */
  datatype Exchange = Refused(cause: string) | Answered(reply: Reply)

  datatype Response = Response(url: string, code: Int32, headers: map<string, string>, content: Reader)

  /** `TextUtils.isEmpty`: null or of length zero. */
  predicate IsEmpty(s: Option<string>) {
    s.None? || s.value == ""
  }

  /** The address `performRequest` opens: the base with its scheme
      rewritten, plus the parameter string for a GET. */
  function ResolvedURL(req: Request, base: string): (r: string)
    ensures req.httpMethod != GET ==> r == RewriteScheme(base, req.protocol)
    ensures StartsWith(r, RewriteScheme(base, req.protocol))
    ensures Address(r) == Address(RewriteScheme(base, req.protocol))
    ensures req.httpMethod == GET ==>
              var p := ConstructURLParams(req.parameters, FormEncoding.Encode);
              '?' in r && |p| <= |r| && r[|r| - |p|..] == p
    ensures req.httpMethod == GET ==>
              var p := ConstructURLParams(req.parameters, FormEncoding.Encode);
              var rewritten := RewriteScheme(base, req.protocol);
              Query(r) == Some(match Query(rewritten)
                               case None => p
                               case Some(q) => if EndsWith(rewritten, '?') then q + p else q + "&" + p)
  {
    var rewritten := RewriteScheme(base, req.protocol);
    var p := ConstructURLParams(req.parameters, FormEncoding.Encode);
    ConstructURLQuery(rewritten, p);
    if req.httpMethod == GET then ConstructURL(rewritten, Some(p))
    else rewritten
  }

  /** The connection setup of `performRequest`: caching off, the request's
      timeouts, its headers followed by `Accept-Encoding: gzip`, its method,
      and for POST and PUT a form content type and the parameter string as
      the body. */
  function Prepare(req: Request, base: string): (o: Outgoing)
    ensures o.url == ResolvedURL(req, base)
    ensures o.verb == req.httpMethod.Name()
    ensures o.connectTimeout == req.connectTimeout && o.readTimeout == req.readTimeout
    ensures !o.useCaches
    ensures o.properties == req.headers + [Header("Accept-Encoding", "gzip")]
    ensures o.body.Some? <==> req.httpMethod.SendsBody()
    ensures o.body.Some? ==> o.body.value == ConstructURLParams(req.parameters, FormEncoding.Encode)
    ensures o.contentType == if req.httpMethod.SendsBody() then Some(FormContentType) else None
  {
    var sendsBody := req.httpMethod.SendsBody();
    Outgoing(
      ResolvedURL(req, base),
      req.httpMethod.Name(),
      req.connectTimeout,
      req.readTimeout,
      false,
      req.headers + [Header("Accept-Encoding", "gzip")],
      if sendsBody then Some(FormContentType) else None,
      if sendsBody then Some(ConstructURLParams(req.parameters, FormEncoding.Encode)) else None)
  }

  /** `"gzip".equals(connection.getContentEncoding())`. */
  predicate Gzipped(reply: Reply) {
    reply.contentEncoding == Some("gzip")
  }

  /** The reader over a reply stream, through gzip decompression when
      `gzip` holds. */
  function Decoded(s: Stream, gzip: bool): (r: Result<Reader, Error>)
    ensures !gzip ==> r == Success(s.plain)
    ensures gzip && s.gunzipped.Success? ==> r == Success(s.gunzipped.value)
    ensures gzip && s.gunzipped.Failure? ==> r == Failure(TransportError(s.gunzipped.error))
  {
    if !gzip then Success(s.plain)
    else match s.gunzipped
      case Failure(cause) => Failure(TransportError(cause))
      case Success(rd) => Success(rd)
  }

  /** The error body as text: the error stream, decompressed when the reply
      is gzip, drained with `inputStreamToString`. A null error stream makes
      Java throw a `NullPointerException`. */
  function ErrorMessage(reply: Reply): (r: Result<string, Error>)
    ensures reply.errorStream.None? ==> r == Failure(NullErrorStream)
    ensures r.Failure? ==> r.error == NullErrorStream || r.error.TransportError?
    ensures reply.errorStream.Some? && !Gzipped(reply) ==>
              r == Success(AllText(reply.errorStream.value.plain.lines[..LinesRead(reply.errorStream.value.plain)]))
    ensures reply.errorStream.Some? && Gzipped(reply) ==>
              match reply.errorStream.value.gunzipped
              case Failure(cause) => r == Failure(TransportError(cause))
              case Success(rd) => r == Success(AllText(rd.lines[..LinesRead(rd)]))
  {
    match reply.errorStream
    case None => Failure(NullErrorStream)
    case Some(s) =>
      match Decoded(s, Gzipped(reply))
      case Failure(e) => Failure(e)
      case Success(rd) => Success(InputStreamToString(rd))
  }

  /** The response content: the input stream, decompressed when the reply
      is gzip. */
  function OpenContent(reply: Reply): (r: Result<Reader, Error>)
    ensures reply.inputStream.Failure? ==> r == Failure(TransportError(reply.inputStream.error))
    ensures reply.inputStream.Success? ==> r == Decoded(reply.inputStream.value, Gzipped(reply))
    ensures r.Failure? ==> r.error.TransportError?
    ensures r.Success? ==> reply.inputStream.Success?
    ensures r.Success? && !Gzipped(reply) ==> r.value == reply.inputStream.value.plain
    ensures r.Success? && Gzipped(reply) ==>
              reply.inputStream.value.gunzipped == Success(r.value)
  {
    match reply.inputStream
    case Failure(cause) => Failure(TransportError(cause))
    case Success(s) => Decoded(s, Gzipped(reply))
  }

  /** The part of `performRequest` after `connect()`. A non-200 status
      fails with the error body as message when that body is not empty and
      falls through otherwise; the response keeps the resolved URL, the
      status and the extracted headers, and its content is decompressed
      exactly when the reply declares gzip. */
  function Complete(url: string, reply: Reply): (r: Result<Response, Error>)
    ensures (r.Failure? && r.error.RemoteError?)
        <==> reply.code != 200 && ErrorMessage(reply).Success? && ErrorMessage(reply).value != ""
    ensures r.Failure? && r.error.RemoteError? ==> ErrorMessage(reply) == Success(r.error.message)
    ensures reply.code == 200 ==> r.Failure? ==> r.error.TransportError?
    ensures r.Success? <==> (reply.code == 200 || ErrorMessage(reply) == Success("")) && OpenContent(reply).Success?
    ensures r.Success? ==> r.value.url == url && r.value.code == reply.code
    ensures r.Success? ==> r.value.headers == GetHeaders(reply.headerTable)
    ensures r.Success? ==> OpenContent(reply) == Success(r.value.content)
    ensures reply.code != 200 && ErrorMessage(reply).Failure? ==> r == Failure(ErrorMessage(reply).error)
    ensures (reply.code == 200 || ErrorMessage(reply) == Success("")) && OpenContent(reply).Failure?
            ==> r == Failure(OpenContent(reply).error)
  {
    if reply.code != 200 && ErrorMessage(reply) != Success("") then
      match ErrorMessage(reply)
      case Failure(e) => Failure(e)
      case Success(message) => Failure(RemoteError(message))
    else
      match OpenContent(reply)
      case Failure(e) => Failure(e)
      case Success(content) => Success(Response(url, reply.code, GetHeaders(reply.headerTable), content))
  }

  /** `performRequest(request, baseUrl)` against `transport`. */
  function PerformRequest(req: Request, base: Option<string>, transport: Outgoing -> Exchange): (r: Result<Response, Error>)
    ensures IsEmpty(base) ==> r == Failure(ConfigurationError(BaseUrlIsNull))
    ensures r.Failure? && r.error.ConfigurationError? ==> IsEmpty(base)
    ensures !IsEmpty(base) && transport(Prepare(req, base.value)).Refused?
            ==> r == Failure(TransportError(transport(Prepare(req, base.value)).cause))
    ensures !IsEmpty(base) && transport(Prepare(req, base.value)).Answered?
            ==> r == Complete(ResolvedURL(req, base.value), transport(Prepare(req, base.value)).reply)
    ensures r.Success? ==> !IsEmpty(base) && r.value.url == ResolvedURL(req, base.value)
    ensures r.Failure? && r.error.RemoteError? ==> !IsEmpty(base) && transport(Prepare(req, base.value)).Answered?
  {
    if IsEmpty(base) then Failure(ConfigurationError(BaseUrlIsNull))
    else
      var out := Prepare(req, base.value);
      match transport(out)
      case Refused(cause) => Failure(TransportError(cause))
      case Answered(reply) =>
        assert out.url == ResolvedURL(req, base.value);
        CompleteNeverBlamesConfiguration(out.url, reply);
        Complete(out.url, reply)
  }

  /** Once a reply is in hand the base URL is no longer at fault: every
      failure of `Complete` is remote, a null error stream, or a transport
      error. */
  lemma CompleteNeverBlamesConfiguration(url: string, reply: Reply)
    ensures var r := Complete(url, reply);
            r.Failure? ==> r.error.RemoteError? || r.error.NullErrorStream? || r.error.TransportError?
  {
  }

  // ---------------------------------------------------------------------
  // Properties of request execution

  /** `performRequest` returns a response exactly when the base URL is
      usable, the exchange is answered, the status is 200 or the error body
      is empty, and the content stream opens. */
  lemma PerformRequestSucceeds(req: Request, base: Option<string>, transport: Outgoing -> Exchange)
    ensures PerformRequest(req, base, transport).Success? <==>
              && !IsEmpty(base)
              && transport(Prepare(req, base.value)).Answered?
              && var reply := transport(Prepare(req, base.value)).reply;
                 (reply.code == 200 || ErrorMessage(reply) == Success("")) && OpenContent(reply).Success?
  {
    if !IsEmpty(base) && transport(Prepare(req, base.value)).Answered? {
      var reply := transport(Prepare(req, base.value)).reply;
      assert PerformRequest(req, base, transport) == Complete(ResolvedURL(req, base.value), reply);
    }
  }

  /** An empty or null base URL fails before anything reaches the network:
      the outcome does not depend on the transport at all. */
  lemma EmptyBaseFailsFirst(req: Request, base: Option<string>, t1: Outgoing -> Exchange, t2: Outgoing -> Exchange)
    requires IsEmpty(base)
    ensures PerformRequest(req, base, t1) == PerformRequest(req, base, t2) == Failure(ConfigurationError(BaseUrlIsNull))
  {
  }

  /** A non-200 reply with a non-empty error body fails with exactly that
      body as message, whatever the content stream holds. */
  lemma RemoteErrorCarriesBody(req: Request, base: string, transport: Outgoing -> Exchange, reply: Reply)
    requires base != ""
    requires transport(Prepare(req, base)) == Answered(reply)
    requires reply.code != 200
    requires ErrorMessage(reply).Success? && ErrorMessage(reply).value != ""
    ensures PerformRequest(req, Some(base), transport) == Failure(RemoteError(ErrorMessage(reply).value))
  {
  }

  /** A non-200 reply with an empty error body is treated like a 200 one:
      only the status recorded in the response differs. */
  lemma EmptyErrorBodyFallsThrough(url: string, reply: Reply)
    requires reply.code != 200 && ErrorMessage(reply) == Success("")
    ensures Complete(url, reply) == match Complete(url, reply.(code := 200))
              case Failure(e) => Failure(e)
              case Success(resp) => Success(resp.(code := reply.code))
  {
  }

  /** Every non-200 status consults the error stream first, so a reply
      without one fails even when its content is readable. The platform
      gives no error stream below status 400, so a 201, 204 or 3xx reply
      always ends here. */
  lemma NoErrorStreamFails(url: string, reply: Reply)
    requires reply.code != 200 && reply.errorStream.None?
    ensures Complete(url, reply) == Failure(NullErrorStream)
  {
  }

  /** The content is the decompressed stream exactly when the reply
      declares gzip. */
  lemma GzipChosenByContentEncoding(url: string, reply: Reply)
    requires Complete(url, reply).Success?
    ensures reply.inputStream.Success?
    ensures Gzipped(reply) ==>
              && reply.inputStream.value.gunzipped.Success?
              && Complete(url, reply).value.content == reply.inputStream.value.gunzipped.value
    ensures !Gzipped(reply) ==> Complete(url, reply).value.content == reply.inputStream.value.plain
  {
  }

  lemma RewriteKeepsNoQuery(base: string, protocol: Protocol)
    requires '?' !in base
    ensures '?' !in RewriteScheme(base, protocol)
  {
    var r := RewriteScheme(base, protocol);
    if StartsWith(base, "http") {
      var n := SchemeMatch(base).value;
      assert r == protocol.Name() + base[n..];
      assert forall i :: 0 <= i < |base[n..]| ==> base[n..][i] == base[n + i];
    }
  }

  /** A GET carries its parameters in the query string: the address part is
      the rewritten base, the query reads back to exactly the usable
      parameters, and nothing is written as a body. */
  lemma GetSendsParametersInQuery(req: Request, base: string)
    requires req.httpMethod == GET
    requires '?' !in base
    requires CleanKeys(req.parameters)
    ensures var o := Prepare(req, base);
            && Address(o.url) == RewriteScheme(base, req.protocol)
            && Query(o.url).Some?
            && ParseParams(Query(o.url).value, FormEncoding.Decode) == Some(Usable(req.parameters))
            && o.body.None? && o.contentType.None?
  {
    var rewritten := RewriteScheme(base, req.protocol);
    var p := ConstructURLParams(req.parameters, FormEncoding.Encode);
    var url := ConstructURL(rewritten, Some(p));
    assert Prepare(req, base).url == url;
    RewriteKeepsNoQuery(base, req.protocol);
    ConstructURLQuery(rewritten, p);
    SplitAtFirstWhole(rewritten);
    assert Address(url) == rewritten && Query(url) == Some(p);
    FormEncodingInvertible();
    ParamsRoundTrip(req.parameters, FormEncoding.Encode, FormEncoding.Decode);
  }

  /** Form encoding meets what the parameter round trip asks of a value
      encoding: decoding undoes it and it never writes `&`. */
  lemma FormEncodingInvertible()
    ensures Invertible(FormEncoding.Encode, FormEncoding.Decode)
  {
    forall v: string
      ensures FormEncoding.Decode(FormEncoding.Encode(v)) == Some(v) && '&' !in FormEncoding.Encode(v)
    {
      FormEncoding.DecodeEncode(v);
    }
  }

  lemma SplitAtFirstWhole(s: string)
    requires '?' !in s
    ensures Address(s) == s && Query(s).None?
  {
  }

  /** POST and PUT carry their parameters as a form body that reads back to
      exactly the usable parameters, and leave the URL without them. */
  lemma BodySendsParametersAsForm(req: Request, base: string)
    requires req.httpMethod.SendsBody()
    requires CleanKeys(req.parameters)
    ensures var o := Prepare(req, base);
            && o.url == RewriteScheme(base, req.protocol)
            && o.body.Some? && ParseParams(o.body.value, FormEncoding.Decode) == Some(Usable(req.parameters))
            && o.contentType == Some(FormContentType)
  {
    FormEncodingInvertible();
    ParamsRoundTrip(req.parameters, FormEncoding.Encode, FormEncoding.Decode);
  }

  /** DELETE sends its parameters nowhere. */
  lemma DeleteDropsParameters(req: Request, base: string)
    requires req.httpMethod == DELETE
    ensures var o := Prepare(req, base);
            o.url == RewriteScheme(base, req.protocol) && o.body.None? && o.contentType.None?
  {
  }
}

=== FILE: form_encoding.dfy ===
/** The value encoding applied to every request parameter: Java's
    `URLEncoder.encode(String)`, i.e. the application/x-www-form-urlencoded
    rules of section 17.13.4.1 of HTML 4.01 with UTF-8 as the character
    encoding. Letters, digits and `.-*_` are kept, a space becomes `+`, and
    every other character becomes its UTF-8 bytes, each written `%XY` with
    upper-case hexadecimal digits. A `char` is a Unicode scalar value, so
    the unpaired surrogates a Java `String` may hold are outside the model.
    A decoder is defined alongside as the partner of the encoder. */
module FormEncoding {
  import opened Wrappers

  type Byte = b: int | 0 <= b < 256

  /** Characters the encoder leaves as they are. */
  predicate Unreserved(c: char) {
    ('a' <= c <= 'z') || ('A' <= c <= 'Z') || ('0' <= c <= '9')
    || c == '.' || c == '-' || c == '*' || c == '_'
  }

  /** Characters that can occur in an encoded value. */
  predicate FormSafe(c: char) {
    Unreserved(c) || c == '+' || c == '%'
  }

  const HexDigits: string := "0123456789ABCDEF"

  function HexDigit(d: int): (c: char)
    requires 0 <= d < 16
    ensures Unreserved(c)
  {
    HexDigits[d]
  }

  /** The value of an upper- or lower-case hexadecimal digit. */
  function HexValue(c: char): (r: Option<int>)
    ensures r.Some? ==> 0 <= r.value < 16
  {
    if '0' <= c <= '9' then Some(c as int - '0' as int)
    else if 'A' <= c <= 'F' then Some(c as int - 'A' as int + 10)
    else if 'a' <= c <= 'f' then Some(c as int - 'a' as int + 10)
    else None
  }

  lemma HexValueOfDigit(d: int)
    requires 0 <= d < 16
    ensures HexValue(HexDigit(d)) == Some(d)
  {
  }

  /** The UTF-8 encoding of one Unicode scalar value: its code point
      split into base-64 digits, the last ones carried by continuation
      bytes. */
  function Utf8(c: char): (bs: seq<Byte>)
    ensures 1 <= |bs| <= 4
  {
    var cp := c as int;
    if cp < 0x80 then [cp]
    else if cp < 0x800 then [0xC0 + cp / 64, 0x80 + cp % 64]
    else if cp < 0x1_0000 then [0xE0 + cp / 64 / 64, 0x80 + cp / 64 % 64, 0x80 + cp % 64]
    else [0xF0 + cp / 64 / 64 / 64, 0x80 + cp / 64 / 64 % 64, 0x80 + cp / 64 % 64, 0x80 + cp % 64]
  }

  /** Each byte written as `%` followed by two upper-case hex digits. */
  function Escape(bs: seq<Byte>): (r: string)
    ensures |r| == 3 * |bs|
    ensures forall i :: 0 <= i < |r| ==> FormSafe(r[i])
  {
    if |bs| == 0 then ""
    else ['%', HexDigit(bs[0] / 16), HexDigit(bs[0] % 16)] + Escape(bs[1..])
  }

  function EncodeChar(c: char): string {
    if Unreserved(c) then [c]
    else if c == ' ' then "+"
    else Escape(Utf8(c))
  }

  /** `URLEncoder.encode(s)`. The result never contains the separators
      `&`, `=` or `?` that structure a query string. */
  function Encode(s: string): (r: string)
    ensures forall i :: 0 <= i < |r| ==> FormSafe(r[i])
    ensures '&' !in r && '=' !in r && '?' !in r
  {
    if |s| == 0 then "" else EncodeChar(s[0]) + Encode(s[1..])
  }

  // ---------------------------------------------------------------------
  // Decoding: the partner of Encode

  /** The byte written `%XY` at the start of `s`. */
  function ReadByte(s: string): Option<Byte> {
    if |s| < 3 || s[0] != '%' then None
    else match (HexValue(s[1]), HexValue(s[2]))
      case (Some(hi), Some(lo)) => Some(16 * hi + lo)
      case _ => None
  }

  /** The `n` escaped bytes at the start of `s`. */
  function ReadBytes(s: string, n: nat): (r: Option<seq<Byte>>)
    ensures r.Some? ==> |r.value| == n && 3 * n <= |s|
  {
    if n == 0 then Some([])
    else match ReadByte(s)
      case None => None
      case Some(b) =>
        match ReadBytes(s[3..], n - 1)
        case None => None
        case Some(bs) => Some([b] + bs)
  }

  /** The length of the UTF-8 sequence that starts with byte `b`. */
  function SequenceLength(b: Byte): Option<nat> {
    if b < 0x80 then Some(1)
    else if 0xC0 <= b < 0xE0 then Some(2)
    else if 0xE0 <= b < 0xF0 then Some(3)
    else if 0xF0 <= b < 0xF8 then Some(4)
    else None
  }

  predicate Continuations(bs: seq<Byte>) {
    forall i :: 1 <= i < |bs| ==> 0x80 <= bs[i] < 0xC0
  }

  /** The code point a well-formed UTF-8 sequence stands for. */
  function CodePoint(bs: seq<Byte>): int
    requires 1 <= |bs| <= 4
  {
    var b: seq<int> := bs;
    if |b| == 1 then b[0]
    else if |b| == 2 then (b[0] - 0xC0) * 64 + (b[1] - 0x80)
    else if |b| == 3 then (b[0] - 0xE0) * 4096 + (b[1] - 0x80) * 64 + (b[2] - 0x80)
    else (b[0] - 0xF0) * 262144 + (b[1] - 0x80) * 4096 + (b[2] - 0x80) * 64 + (b[3] - 0x80)
  }

  predicate IsScalar(cp: int) {
    (0 <= cp < 0xD800) || (0xE000 <= cp < 0x11_0000)
  }

  /** The character at the start of `s` and how many characters of `s` it
      took: `+` is a space, `%XY...` a UTF-8 sequence, anything else
      itself. */
  function DecodeOne(s: string): (r: Option<(char, nat)>)
    requires |s| > 0
    ensures r.Some? ==> 1 <= r.value.1 <= |s|
  {
    if s[0] == '+' then Some((' ', 1))
    else if s[0] != '%' then Some((s[0], 1))
    else match ReadByte(s)
      case None => None
      case Some(b0) =>
        match SequenceLength(b0)
        case None => None
        case Some(n) =>
          match ReadBytes(s, n)
          case None => None
          case Some(bs) =>
            if Continuations(bs) && IsScalar(CodePoint(bs))
            then Some((CodePoint(bs) as char, 3 * n))
            else None
  }

  /** Form decoding: `None` when `s` holds a malformed escape. */
  function Decode(s: string): Option<string>
    decreases |s|
  {
    if |s| == 0 then Some("")
    else match DecodeOne(s)
      case None => None
      case Some((c, k)) =>
        match Decode(s[k..])
        case None => None
        case Some(t) => Some([c] + t)
  }

  // ---------------------------------------------------------------------
  // Round trip

  lemma Utf8Shape(c: char)
    ensures SequenceLength(Utf8(c)[0]) == Some(|Utf8(c)|)
    ensures Continuations(Utf8(c))
  {
  }

  lemma Utf8CodePoint(c: char)
    ensures CodePoint(Utf8(c)) == c as int
  {
    var cp := c as int;
    var q1 := cp / 64;
    var q2 := q1 / 64;
    assert cp == q1 * 64 + cp % 64;
    assert q1 == q2 * 64 + q1 % 64;
    assert q2 == (q2 / 64) * 64 + q2 % 64;
  }

  /** One escaped byte reads back as that byte. */
  lemma ReadOneEscaped(b: Byte, rest: string)
    ensures ReadByte(['%', HexDigit(b / 16), HexDigit(b % 16)] + rest) == Some(b)
  {
    HexValueOfDigit(b / 16);
    HexValueOfDigit(b % 16);
  }

  /** The first byte of an escaped sequence reads back, leaving the escape
      of the remaining bytes. */
  lemma EscapeHead(bs: seq<Byte>, rest: string)
    requires |bs| > 0
    ensures ReadByte(Escape(bs) + rest) == Some(bs[0])
    ensures (Escape(bs) + rest)[3..] == Escape(bs[1..]) + rest
  {
    var head := ['%', HexDigit(bs[0] / 16), HexDigit(bs[0] % 16)];
    var escaped := Escape(bs[1..]);
    assert Escape(bs) == head + escaped;
    Regroup(head, escaped, rest);
    DropHead(head, escaped + rest);
    ReadOneEscaped(bs[0], escaped + rest);
  }

  lemma Regroup(a: string, b: string, c: string)
    ensures (a + b) + c == a + (b + c)
  {
  }

  lemma DropHead(head: string, tail: string)
    requires |head| == 3
    ensures (head + tail)[3..] == tail
  {
  }

  lemma ReadBytesStep(text: string, b: Byte, n: nat, bs: seq<Byte>)
    requires ReadByte(text) == Some(b) && ReadBytes(text[3..], n) == Some(bs)
    ensures ReadBytes(text, n + 1) == Some([b] + bs)
  {
  }

  lemma {:induction false} ReadEscaped(bs: seq<Byte>, rest: string)
    ensures ReadBytes(Escape(bs) + rest, |bs|) == Some(bs)
  {
    if |bs| > 0 {
      EscapeHead(bs, rest);
      ReadEscaped(bs[1..], rest);
      ReadBytesStep(Escape(bs) + rest, bs[0], |bs| - 1, bs[1..]);
      assert [bs[0]] + bs[1..] == bs;
    }
  }

  /** Decoding the encoding of one character gives that character back and
      consumes exactly its encoding. */
  lemma {:induction false} DecodeOneEncodeChar(c: char, rest: string)
    ensures DecodeOne(EncodeChar(c) + rest) == Some((c, |EncodeChar(c)|))
  {
    if !Unreserved(c) && c != ' ' {
      var bs := Utf8(c);
      var s := Escape(bs) + rest;
      ReadEscaped(bs, rest);
      Utf8Shape(c);
      Utf8CodePoint(c);
      assert ReadBytes(s, |bs|) == Some(bs);
      assert ReadByte(s) == Some(bs[0]);
    }
  }

  /** Form decoding inverts form encoding: `URLEncoder.encode` loses no
      information about a string of Unicode scalar values (well-formed
      UTF-16 on the Java side). */
  lemma {:induction false} DecodeEncode(s: string)
    ensures Decode(Encode(s)) == Some(s)
  {
    if |s| > 0 {
      var e := EncodeChar(s[0]);
      DecodeOneEncodeChar(s[0], Encode(s[1..]));
      assert (e + Encode(s[1..]))[|e|..] == Encode(s[1..]);
      DecodeEncode(s[1..]);
      assert [s[0]] + s[1..] == s;
    }
  }

  /** Two strings of Unicode scalar values with the same encoding are
      equal. */
  lemma {:induction false} EncodeInjective(s: string, t: string)
    requires Encode(s) == Encode(t)
    ensures s == t
  {
    DecodeEncode(s);
    DecodeEncode(t);
  }
}

=== FILE: headers.dfy ===
/** Reply-header extraction: `Connector.getHeaders`. The connection exposes
    its header fields by index; the key at index 0 may be null (the status
    line), in which case scanning starts at index 1. Scanning stops at the
    first null key, and each field is put into a hash map, so a later field
    with the same key replaces an earlier one. */
module Headers {
  import opened Wrappers

  /** One header field as the connection exposes it; the status-line
      pseudo-field has no key. */
  datatype HeaderField = HeaderField(key: Option<string>, value: string)

  /** `getHeaderFieldKey(i)`: null past the last field. */
  function KeyAt(table: seq<HeaderField>, i: nat): Option<string> {
    if i < |table| then table[i].key else None
  }

  /** The index scanning starts at: 1 exactly when key 0 is null. */
  function Start(table: seq<HeaderField>): (i: nat)
    ensures i == 1 <==> KeyAt(table, 0).None?
    ensures i == 0 <==> KeyAt(table, 0).Some?
  {
    if KeyAt(table, 0).None? then 1 else 0
  }

  /** The keyed fields from index `i` up to (not including) the first
      null key: the longest run of keyed fields starting at `i`. */
  function Run(table: seq<HeaderField>, i: nat): (r: seq<(string, string)>)
    ensures forall n :: 0 <= n < |r| ==> i + n < |table| && table[i + n] == HeaderField(Some(r[n].0), r[n].1)
    ensures KeyAt(table, i + |r|).None?
    decreases |table| - i
  {
    if i >= |table| || table[i].key.None? then []
    else [(table[i].key.value, table[i].value)] + Run(table, i + 1)
  }

  /** The fields `getHeaders` visits, in index order. */
  function Fields(table: seq<HeaderField>): seq<(string, string)> {
    Run(table, Start(table))
  }

  /** The value of the last entry with key `k`, if any: what a sequence of
      `HashMap.put` calls leaves behind for `k`. */
  function LastValue(entries: seq<(string, string)>, k: string): (r: Option<string>)
    ensures r.Some? ==> exists i :: 0 <= i < |entries| && entries[i] == (k, r.value)
                                   && forall j :: i < j < |entries| ==> entries[j].0 != k
    ensures r.None? ==> forall i :: 0 <= i < |entries| ==> entries[i].0 != k
  {
    if |entries| == 0 then None
    else if entries[|entries| - 1].0 == k then Some(entries[|entries| - 1].1)
    else LastValue(entries[..|entries| - 1], k)
  }

  lemma {:induction false} LastValueCons(e: (string, string), rest: seq<(string, string)>, k: string)
    ensures LastValue([e] + rest, k)
         == if LastValue(rest, k).Some? then LastValue(rest, k)
            else if e.0 == k then Some(e.1) else None
  {
    if |rest| > 0 {
      var es := [e] + rest;
      assert es[..|es| - 1] == [e] + rest[..|rest| - 1];
      assert es[|es| - 1] == rest[|rest| - 1];
      LastValueCons(e, rest[..|rest| - 1], k);
    } else {
      assert [e] + rest == [e];
    }
  }

  /** The Java loop from index `idx` with the map `m` built so far. */
  function GetHeadersFrom(table: seq<HeaderField>, idx: nat, m: map<string, string>): map<string, string>
    decreases |table| - idx
  {
    match KeyAt(table, idx)
    case None => m
    case Some(k) => GetHeadersFrom(table, idx + 1, m[k := table[idx].value])
  }

  /** The entry a map holds for `k`, if any. */
  function Lookup(m: map<string, string>, k: string): Option<string> {
    if k in m then Some(m[k]) else None
  }

  lemma {:induction false} GetHeadersFromPuts(table: seq<HeaderField>, idx: nat, m: map<string, string>, k: string)
    ensures Lookup(GetHeadersFrom(table, idx, m), k)
         == if LastValue(Run(table, idx), k).Some? then LastValue(Run(table, idx), k) else Lookup(m, k)
    decreases |table| - idx
  {
    if KeyAt(table, idx).Some? {
      var e := (table[idx].key.value, table[idx].value);
      GetHeadersFromPuts(table, idx + 1, m[e.0 := e.1], k);
      assert Run(table, idx) == [e] + Run(table, idx + 1);
      LastValueCons(e, Run(table, idx + 1), k);
    }
  }

  lemma GetHeadersLastWins(table: seq<HeaderField>)
    ensures var r := GetHeadersFrom(table, Start(table), map[]);
            forall k :: Lookup(r, k) == LastValue(Fields(table), k)
  {
    forall k {
      GetHeadersFromPuts(table, Start(table), map[], k);
    }
  }

  /** `getHeaders(connection, headers)` on an empty map. A key is recorded
      exactly when some visited field carries it, and its value is that of
      the last such field. */
  function GetHeaders(table: seq<HeaderField>): (r: map<string, string>)
    ensures forall k :: k in r <==> LastValue(Fields(table), k).Some?
    ensures forall k :: k in r ==> LastValue(Fields(table), k) == Some(r[k])
  {
    GetHeadersLastWins(table);
    var r := GetHeadersFrom(table, Start(table), map[]);
    assert forall k :: Lookup(r, k) == LastValue(Fields(table), k);
    r
  }

  lemma {:induction false} RunUnaffectedPastNull(table: seq<HeaderField>, other: seq<HeaderField>, i: nat, j: nat)
    requires i <= j < |table| && table[j].key.None?
    requires j < |other| && other[..j + 1] == table[..j + 1]
    ensures Run(other, i) == Run(table, i)
    decreases j - i
  {
    assert other[i] == other[..j + 1][i];
    assert table[i] == table[..j + 1][i];
    if i < j {
      RunUnaffectedPastNull(table, other, i + 1, j);
    }
  }

  /** Scanning stops at the first null key after the start: whatever
      follows it is never read. */
  lemma HeadersIgnoreAfterNull(table: seq<HeaderField>, j: nat, more: seq<HeaderField>)
    requires Start(table) <= j < |table| && table[j].key.None?
    ensures GetHeaders(table[..j + 1] + more) == GetHeaders(table)
  {
    var other := table[..j + 1] + more;
    assert other[..j + 1] == table[..j + 1];
    assert other[0] == table[0];
    RunUnaffectedPastNull(table, other, Start(table), j);
    assert Fields(other) == Fields(table);
    var a, b := GetHeaders(other), GetHeaders(table);
    assert forall k :: k in a <==> k in b;
    assert forall k :: k in a ==> a[k] == b[k];
  }

  /** The status-line pseudo-field at index 0 is never recorded: when key 0
      is null, the result is what the fields from index 1 on give. */
  lemma PseudoFieldSkipped(status: string, rest: seq<HeaderField>)
    ensures Fields([HeaderField(None, status)] + rest) == Run([HeaderField(None, status)] + rest, 1)
    ensures Run([HeaderField(None, status)] + rest, 1) == Run(rest, 0)
  {
    RunShift(HeaderField(None, status), rest, 0);
  }

  lemma {:induction false} RunShift(h: HeaderField, rest: seq<HeaderField>, i: nat)
    ensures Run([h] + rest, i + 1) == Run(rest, i)
    decreases |rest| - i
  {
    var t := [h] + rest;
    if i < |rest| {
      assert t[i + 1] == rest[i];
      RunShift(h, rest, i + 1);
    }
  }
}

=== FILE: request.dfy ===
/** The request description: `Request.java`. A request carries the HTTP
    method, the protocol, two timeouts and two ordered maps (parameters and
    headers). Every constructor arity delegates to the full one, which turns
    an absent (null) map into an empty one. */
module Requests {
  import opened Wrappers

  /** A Java `int`. */
  type Int32 = x: int | -0x8000_0000 <= x < 0x8000_0000

  const DefaultConnectTimeout: Int32 := 3500
  const DefaultReadTimeout: Int32 := 6000

  datatype Method = GET | POST | PUT | DELETE {
    /** Java's `Enum.name()`. */
    function Name(): string {
      match this
      case GET => "GET"
      case POST => "POST"
      case PUT => "PUT"
      case DELETE => "DELETE"
    }

    /** The methods that send their parameters as a form body. */
    predicate SendsBody() {
      this == POST || this == PUT
    }
  }

  datatype Protocol = HTTP | HTTPS {
    /** Java's `Enum.name()`: the upper-case constant name. */
    function Name(): string {
      match this
      case HTTP => "HTTP"
      case HTTPS => "HTTPS"
    }
  }

  /** One parameter entry in iteration order; a null value is `None`. */
  datatype Param = Param(key: string, value: Option<string>)

  /** One header entry in iteration order. */
  datatype Header = Header(name: string, value: string)

  datatype Request = Request(
    httpMethod: Method,
    protocol: Protocol,
    connectTimeout: Int32,
    readTimeout: Int32,
    parameters: seq<Param>,
    headers: seq<Header>)

  /** The six-argument constructor. Fields are stored as given, with no
      validation of the timeouts; an absent map becomes an empty one. */
  function NewRequest(httpMethod: Method, protocol: Protocol, connectTimeout: Int32, readTimeout: Int32,
                      parameters: Option<seq<Param>>, headers: Option<seq<Header>>): (r: Request)
    ensures r.httpMethod == httpMethod && r.protocol == protocol
    ensures r.connectTimeout == connectTimeout && r.readTimeout == readTimeout
    ensures parameters.None? ==> r.parameters == []
    ensures parameters.Some? ==> r.parameters == parameters.value
    ensures headers.None? ==> r.headers == []
    ensures headers.Some? ==> r.headers == headers.value
  {
    Request(httpMethod, protocol, connectTimeout, readTimeout, parameters.GetOr([]), headers.GetOr([]))
  }

  /** The five-argument constructor: no headers. */
  function NewRequestWithParameters(httpMethod: Method, protocol: Protocol, connectTimeout: Int32, readTimeout: Int32,
                                    parameters: Option<seq<Param>>): (r: Request)
    ensures r.httpMethod == httpMethod && r.protocol == protocol
    ensures r.connectTimeout == connectTimeout && r.readTimeout == readTimeout
    ensures r.parameters == parameters.GetOr([])
    ensures r.headers == []
  {
    NewRequest(httpMethod, protocol, connectTimeout, readTimeout, parameters, None)
  }

  /** The four-argument constructor: no parameters and no headers. */
  function NewRequestWithTimeouts(httpMethod: Method, protocol: Protocol, connectTimeout: Int32, readTimeout: Int32): (r: Request)
    ensures r.httpMethod == httpMethod && r.protocol == protocol
    ensures r.connectTimeout == connectTimeout && r.readTimeout == readTimeout
    ensures r.parameters == [] && r.headers == []
  {
    NewRequest(httpMethod, protocol, connectTimeout, readTimeout, None, None)
  }

  /** The two-argument constructor: the default timeouts 3500 ms and
      6000 ms, no parameters and no headers. */
  function NewDefaultRequest(httpMethod: Method, protocol: Protocol): (r: Request)
    ensures r.httpMethod == httpMethod && r.protocol == protocol
    ensures r.connectTimeout == 3500 && r.readTimeout == 6000
    ensures r.parameters == [] && r.headers == []
  {
    NewRequestWithTimeouts(httpMethod, protocol, DefaultConnectTimeout, DefaultReadTimeout)
  }

  /** The delegation chain of the shorter constructors: the five-argument
      one is the six-argument one with null headers, the four-argument one
      is the six-argument one with null maps, and the two-argument one is
      the four-argument one with the default timeouts. */
  lemma ShortConstructorsDelegate(httpMethod: Method, protocol: Protocol, connectTimeout: Int32, readTimeout: Int32,
                                  parameters: Option<seq<Param>>)
    ensures NewRequestWithParameters(httpMethod, protocol, connectTimeout, readTimeout, parameters)
         == NewRequest(httpMethod, protocol, connectTimeout, readTimeout, parameters, None)
    ensures NewRequestWithTimeouts(httpMethod, protocol, connectTimeout, readTimeout)
         == NewRequest(httpMethod, protocol, connectTimeout, readTimeout, None, None)
    ensures NewDefaultRequest(httpMethod, protocol)
         == NewRequestWithTimeouts(httpMethod, protocol, 3500, 6000)
  {
  }

  /** Absent and empty maps are indistinguishable after construction. */
  lemma NullAndEmptyAgree(httpMethod: Method, protocol: Protocol, connectTimeout: Int32, readTimeout: Int32)
    ensures NewRequest(httpMethod, protocol, connectTimeout, readTimeout, None, None)
         == NewRequest(httpMethod, protocol, connectTimeout, readTimeout, Some([]), Some([]))
  {
  }
}

=== FILE: scenarios.dfy ===
/** Concrete request and reply scenarios, each worked out on the model. */
module Scenarios {
  import opened Wrappers
  import Strings
  import opened Requests
  import FormEncoding
  import opened UrlParams
  import opened Urls
  import opened Headers
  import opened Streams
  import opened Connector

  /** The three separator cases of `constructURL`, and the trailing `?`
      left by an empty parameter string. */
  lemma ConstructURLExamples()
    ensures ConstructURL("http://x", Some("a=1")) == "http://x?a=1"
    ensures ConstructURL("http://x?b=2", Some("a=1")) == "http://x?b=2&a=1"
    ensures ConstructURL("http://x?", Some("a=1")) == "http://x?a=1"
    ensures ConstructURL("http://x", Some("")) == "http://x?"
  {
    assert '?' !in "http://x";
    assert "http://x" + "?" + "a=1" == "http://x?a=1";
    assert "http://x" + "?" + "" == "http://x?";
    assert "http://x?b=2"[8] == '?' && !Strings.EndsWith("http://x?b=2", '?');
    assert "http://x?b=2" + "&" + "a=1" == "http://x?b=2&a=1";
    assert Strings.EndsWith("http://x?", '?');
    assert "http://x?" + "a=1" == "http://x?a=1";
  }

  /** A space becomes `+` and `&` its escape `%26`. */
  lemma EncodeExample()
    ensures FormEncoding.Encode("x y&") == "x+y%26"
  {
    assert FormEncoding.Utf8('&') == [38];
    assert FormEncoding.EncodeChar('&') == "%26";
    assert FormEncoding.Encode("&") == "%26" + FormEncoding.Encode("");
    assert FormEncoding.Encode("y&") == "y" + FormEncoding.Encode("&");
    assert FormEncoding.Encode(" y&") == "+" + FormEncoding.Encode("y&");
    assert FormEncoding.Encode("x y&") == "x" + FormEncoding.Encode(" y&");
  }

  /** Null values are skipped and keys are kept as they are, whatever the
      value encoder. */
  lemma ExampleParams(enc: string -> string)
    ensures ConstructURLParams([Param("a", Some("1")), Param("b", None), Param("c", Some("x y&"))], enc)
         == "a=" + enc("1") + "&c=" + enc("x y&")
  {
    var ps := [Param("a", Some("1")), Param("b", None), Param("c", Some("x y&"))];
    var a, c := Piece("a", "1", enc), Piece("c", "x y&", enc);
    assert ps[2..] == [Param("c", Some("x y&"))] && ps[2..][1..] == [];
    assert Pieces(ps[2..], enc) == [c];
    assert Pieces(ps[1..], enc) == [c];
    assert Pieces(ps, enc) == [a, c];
    assert [a, c][1..] == [c];
    assert Strings.Join([a, c], '&') == a + "&" + c;
  }

  /** With form encoding the values are escaped. */
  lemma ConstructURLParamsExample()
    ensures ConstructURLParams([Param("a", Some("1")), Param("b", None), Param("c", Some("x y&"))], FormEncoding.Encode)
         == "a=1&c=x+y%26"
  {
    ExampleParams(FormEncoding.Encode);
    EncodeExample();
    assert FormEncoding.EncodeChar('1') == "1";
    assert FormEncoding.Encode("1") == "1" + FormEncoding.Encode("");
    assert "a=" + "1" + "&c=" + "x+y%26" == "a=1&c=x+y%26";
  }

  /** The declared protocol replaces a lower-case scheme, in upper case. */
  lemma SchemeRewriteExample()
    ensures ResolvedURL(NewDefaultRequest(DELETE, HTTPS), "http://host/path") == "HTTPS://host/path"
  {
    var rest := "://host/path";
    assert rest[..1] == ":";
    assert !Strings.StartsWith(rest, "s");
    assert "http://host/path" == "http" + rest;
    RewriteSchemeWins(rest, false, HTTPS);
    assert HTTPS.Name() + rest == "HTTPS://host/path";
  }

  /** An `https` base with the HTTP protocol loses its `s`. */
  lemma SchemeDowngradeExample()
    ensures ResolvedURL(NewDefaultRequest(DELETE, HTTP), "https://host/path") == "HTTP://host/path"
  {
    var rest := "://host/path";
    assert "https://host/path" == "https" + rest;
    RewriteSchemeWins(rest, true, HTTP);
    assert HTTP.Name() + rest == "HTTP://host/path";
  }

  /** A 404, for which `getInputStream()` throws: a non-empty error body
      is the failure message; an empty one falls through to the input
      stream, whose exception ends the call; a null error stream fails
      before either. */
  lemma NotFoundExamples(url: string, cause: string)
    ensures var body := Stream(Reader([Line("not found", false)], None), Failure("Not in GZIP format"));
            Complete(url, Reply(404, [], None, Some(body), Failure(cause)))
            == Failure(RemoteError("not found"))
    ensures var body := Stream(Reader([], None), Failure("Not in GZIP format"));
            Complete(url, Reply(404, [], None, Some(body), Failure(cause)))
            == Failure(TransportError(cause))
    ensures Complete(url, Reply(404, [], None, None, Failure(cause)))
            == Failure(NullErrorStream)
  {
    var r1 := Reader([Line("not found", false)], None);
    assert LinesRead(r1) == 1;
    assert r1.lines[..1] == r1.lines;
    assert InputStreamToString(r1) == "not found";
    var r2 := Reader([], None);
    assert InputStreamToString(r2) == "";
  }

  /** A 204 reply has a readable, empty content stream, but `getErrorStream()`
      is null below status 400, so the call fails. */
  lemma NoContentExample(url: string)
    ensures var content := Stream(Reader([], None), Failure("Not in GZIP format"));
            Complete(url, Reply(204, [], None, None, Success(content)))
            == Failure(NullErrorStream)
  {
  }

  /** The status-line pseudo-field is skipped and the last duplicate wins. */
  lemma GetHeadersExample()
    ensures GetHeaders([HeaderField(None, "HTTP/1.1 200 OK"), HeaderField(Some("A"), "1"),
                        HeaderField(Some("B"), "2"), HeaderField(Some("A"), "3")])
         == map["A" := "3", "B" := "2"]
  {
    var t := [HeaderField(None, "HTTP/1.1 200 OK"), HeaderField(Some("A"), "1"),
              HeaderField(Some("B"), "2"), HeaderField(Some("A"), "3")];
    var m1 := map["A" := "1"];
    var m2 := m1["B" := "2"];
    var m3 := m2["A" := "3"];
    assert Start(t) == 1;
    assert GetHeadersFrom(t, 4, m3) == m3;
    assert GetHeadersFrom(t, 2, m1) == GetHeadersFrom(t, 3, m2) == GetHeadersFrom(t, 4, m3);
    assert GetHeadersFrom(t, 1, map[]) == GetHeadersFrom(t, 2, m1);
    assert m3 == map["A" := "3", "B" := "2"];
  }

  /** Lines are glued without separators, and a not-ready reader ends the
      drain even though more lines follow. */
  lemma DrainExamples()
    ensures InputStreamToString(Reader([Line("a", true), Line("b", true)], None)) == "ab"
    ensures InputStreamToString(Reader([Line("a", false), Line("b", true)], None)) == "a"
    ensures InputStreamToString(Reader([Line("a", true), Line("b", true)], Some(1))) == "a"
  {
    var r1 := Reader([Line("a", true), Line("b", true)], None);
    assert LinesRead(r1) == 2 && r1.lines[..2] == r1.lines;
    var r2 := Reader([Line("a", false), Line("b", true)], None);
    assert LinesRead(r2) == 1 && r2.lines[..1] == [Line("a", false)];
    var r3 := Reader([Line("a", true), Line("b", true)], Some(1));
    assert LinesRead(r3) == 1 && r3.lines[..1] == [Line("a", true)];
  }
}

=== FILE: streams.dfy ===
/** Draining a body stream to text: `Connector.inputStreamToString`. Lines
    are read one by one and appended with no separator; after each line the
    loop stops if the reader reports that no more input is ready. An I/O
    failure is swallowed and the text read so far is returned. */
module Streams {
  import opened Wrappers
  import opened Strings

  /** One line as `readLine` returns it, and what `ready()` answers right
      after it has been read. */
  datatype Line = Line(text: string, readyAfter: bool)

  /** A buffered reader over a stream: the lines it yields in order (then
      end of stream), and the index of the `readLine` call that throws an
      I/O exception, if one does. A failing `ready()` after line `i`
      behaves as a failing `readLine` number `i + 1`. */
  datatype Reader = Reader(lines: seq<Line>, failsAt: Option<nat>)

  /** The text of `lines` with line boundaries erased. */
  function AllText(lines: seq<Line>): string {
    if |lines| == 0 then "" else lines[0].text + AllText(lines[1..])
  }

  /** The Java loop from line `i` with `total` accumulated. */
  function DrainFrom(rd: Reader, i: nat, total: string): string
    decreases |rd.lines| - i
  {
    if rd.failsAt == Some(i) || i >= |rd.lines| then total
    else if !rd.lines[i].readyAfter then total + rd.lines[i].text
    else DrainFrom(rd, i + 1, total + rd.lines[i].text)
  }

  /** The index of the first line after which the reader is not ready, or
      the number of lines when there is none. */
  function FirstNotReady(lines: seq<Line>): (n: nat)
    ensures n <= |lines|
    ensures n < |lines| ==> !lines[n].readyAfter
    ensures forall j :: 0 <= j < n ==> lines[j].readyAfter
  {
    if |lines| == 0 || !lines[0].readyAfter then 0 else 1 + FirstNotReady(lines[1..])
  }

  /** How many lines the loop appends: it stops after the first not-ready
      line, at end of stream, or at the failing read, whichever comes
      first. */
  function LinesRead(rd: Reader): (n: nat)
    ensures n <= |rd.lines|
    ensures forall j :: 0 <= j < n - 1 ==> rd.lines[j].readyAfter
    ensures rd.failsAt.Some? ==> n <= rd.failsAt.value
    ensures n == |rd.lines| || (n > 0 && !rd.lines[n - 1].readyAfter) || rd.failsAt == Some(n)
  {
    var f := FirstNotReady(rd.lines);
    var stop := if f < |rd.lines| then f + 1 else |rd.lines|;
    if rd.failsAt.Some? && rd.failsAt.value < stop then rd.failsAt.value else stop
  }

  lemma {:induction false} DrainFromReadsUpTo(rd: Reader, i: nat, total: string)
    requires i <= LinesRead(rd)
    requires forall j :: 0 <= j < i ==> rd.lines[j].readyAfter
    ensures DrainFrom(rd, i, total) == total + AllText(rd.lines[i..LinesRead(rd)])
    decreases |rd.lines| - i
  {
    var n := LinesRead(rd);
    if i == n {
      assert rd.lines[i..n] == [];
    } else {
      assert rd.lines[i..n][1..] == rd.lines[i + 1..n];
      if !rd.lines[i].readyAfter {
        assert i + 1 == n;
        assert rd.lines[i + 1..n] == [];
      } else {
        DrainFromReadsUpTo(rd, i + 1, total + rd.lines[i].text);
      }
    }
  }

  /** `inputStreamToString(stream)`: the text of exactly the lines the loop
      reads, concatenated with no separator. */
  function InputStreamToString(rd: Reader): (r: string)
    ensures r == AllText(rd.lines[..LinesRead(rd)])
  {
    DrainFromReadsUpTo(rd, 0, "");
    assert rd.lines[0..LinesRead(rd)] == rd.lines[..LinesRead(rd)];
    DrainFrom(rd, 0, "")
  }

  lemma {:induction false} AllTextAppend(a: seq<Line>, b: seq<Line>)
    ensures AllText(a + b) == AllText(a) + AllText(b)
  {
    if |a| == 0 {
      assert a + b == b;
    } else {
      var ab := a + b;
      assert ab[0] == a[0] && ab[1..] == a[1..] + b;
      calc {
        AllText(ab);
        a[0].text + AllText(a[1..] + b);
        { AllTextAppend(a[1..], b); }
        a[0].text + (AllText(a[1..]) + AllText(b));
      }
    }
  }

  /** Draining never invents text: the result is a prefix of the whole
      stream's text. */
  lemma DrainIsPrefix(rd: Reader)
    ensures StartsWith(AllText(rd.lines), InputStreamToString(rd))
  {
    var n := LinesRead(rd);
    assert rd.lines == rd.lines[..n] + rd.lines[n..];
    AllTextAppend(rd.lines[..n], rd.lines[n..]);
  }

  /** A reader that is always ready and never fails is drained completely. */
  lemma DrainAllWhenAlwaysReady(rd: Reader)
    requires forall j :: 0 <= j < |rd.lines| ==> rd.lines[j].readyAfter
    requires rd.failsAt.None? || rd.failsAt.value >= |rd.lines|
    ensures InputStreamToString(rd) == AllText(rd.lines)
  {
    assert rd.lines[..|rd.lines|] == rd.lines;
  }

  /** An I/O failure before any not-ready line yields the text of the lines
      read before it, not an error. */
  lemma DrainStopsAtFailure(rd: Reader, f: nat)
    requires rd.failsAt == Some(f) && f <= |rd.lines|
    requires forall j :: 0 <= j < f ==> rd.lines[j].readyAfter
    ensures InputStreamToString(rd) == AllText(rd.lines[..f])
  {
    if f < |rd.lines| {
      assert FirstNotReady(rd.lines) >= f;
    }
  }

  /** A line after which the reader is not ready ends the drain, even when
      more lines follow: the text of the later lines is lost. */
  lemma DrainStopsWhenNotReady(rd: Reader, k: nat)
    requires k < |rd.lines| && !rd.lines[k].readyAfter
    requires forall j :: 0 <= j < k ==> rd.lines[j].readyAfter
    requires rd.failsAt.None? || rd.failsAt.value > k
    ensures InputStreamToString(rd) == AllText(rd.lines[..k + 1])
  {
    assert FirstNotReady(rd.lines) == k;
  }
}

=== FILE: strings.dfy ===
/** String helpers shared by the URL, parameter and stream models: prefix
    tests, joining with a separator and splitting on a separator. */
module Strings {
  import opened Wrappers

  /** `p` is a prefix of `s` (Java's `s.startsWith(p)`). */
  predicate StartsWith(s: string, p: string) {
    |p| <= |s| && s[..|p|] == p
  }

  /** `s` ends with the character `c` (Java's `s.endsWith("" + c)`). */
  predicate EndsWith(s: string, c: char) {
    |s| > 0 && s[|s| - 1] == c
  }

  /** Concatenation of `pieces` with one `sep` between consecutive pieces. */
  function Join(pieces: seq<string>, sep: char): string {
    if |pieces| == 0 then ""
    else if |pieces| == 1 then pieces[0]
    else pieces[0] + [sep] + Join(pieces[1..], sep)
  }

  /** The maximal `sep`-free runs of `s`, in order: the inverse of `Join`.
      The empty string splits into one empty piece. */
  function Split(s: string, sep: char): (r: seq<string>)
    ensures |r| >= 1
    ensures forall i :: 0 <= i < |r| ==> sep !in r[i]
  {
    if |s| == 0 then [""]
    else if s[0] == sep then [""] + Split(s[1..], sep)
    else
      var t := Split(s[1..], sep);
      [[s[0]] + t[0]] + t[1..]
  }

  /** The text before the first `sep` of `s`, and the text after it when
      `sep` occurs at all. */
  function SplitAtFirst(s: string, sep: char): (r: (string, Option<string>))
    ensures sep !in r.0
    ensures r.1.None? <==> sep !in s
    ensures r.1.Some? ==> s == r.0 + [sep] + r.1.value
    ensures r.1.None? ==> r.0 == s
  {
    if |s| == 0 then ("", None)
    else if s[0] == sep then ("", Some(s[1..]))
    else
      var t := SplitAtFirst(s[1..], sep);
      assert s == [s[0]] + s[1..];
      ([s[0]] + t.0, t.1)
  }

  /** Splitting a separator-free string yields that string alone. */
  lemma {:induction false} SplitNoSep(p: string, sep: char)
    requires sep !in p
    ensures Split(p, sep) == [p]
  {
    if |p| > 0 {
      SplitNoSep(p[1..], sep);
      assert [p[0]] + p[1..] == p;
    }
  }

  /** A separator-free piece followed by a separator splits off as the
      first piece. */
  lemma {:induction false} SplitPieceThenRest(p: string, sep: char, rest: string)
    requires sep !in p
    ensures Split(p + [sep] + rest, sep) == [p] + Split(rest, sep)
  {
    if |p| == 0 {
      assert p + [sep] + rest == [sep] + rest;
      assert ([sep] + rest)[1..] == rest;
    } else {
      SplitPieceThenRest(p[1..], sep, rest);
      var s := p + [sep] + rest;
      assert s[0] == p[0];
      assert s[1..] == p[1..] + [sep] + rest;
      assert [p[0]] + p[1..] == p;
    }
  }

  /** Splitting a join of separator-free pieces gives the pieces back. */
  lemma {:induction false} SplitJoin(pieces: seq<string>, sep: char)
    requires |pieces| >= 1
    requires forall i :: 0 <= i < |pieces| ==> sep !in pieces[i]
    ensures Split(Join(pieces, sep), sep) == pieces
  {
    if |pieces| == 1 {
      SplitNoSep(pieces[0], sep);
    } else {
      SplitJoin(pieces[1..], sep);
      SplitPieceThenRest(pieces[0], sep, Join(pieces[1..], sep));
      assert [pieces[0]] + pieces[1..] == pieces;
    }
  }

  /** Splitting at the first separator recovers a separator-free head. */
  lemma {:induction false} SplitAtFirstPiece(p: string, sep: char, rest: string)
    requires sep !in p
    ensures SplitAtFirst(p + [sep] + rest, sep) == (p, Some(rest))
  {
    var s := p + [sep] + rest;
    if |p| == 0 {
      assert s == [sep] + rest;
      assert s[0] == sep && s[1..] == rest;
    } else {
      assert s[0] == p[0] != sep;
      assert s[1..] == p[1..] + [sep] + rest;
      SplitAtFirstPiece(p[1..], sep, rest);
      var t := SplitAtFirst(s[1..], sep);
      assert t == (p[1..], Some(rest));
      assert SplitAtFirst(s, sep) == ([s[0]] + t.0, t.1);
      assert [p[0]] + p[1..] == p;
    }
  }
}

=== FILE: url_params.dfy ===
/** The parameter string of a request: `Connector.constructURLParams`.
    Entries are visited in iteration order. An entry with a null value is
    skipped; every other entry is written `key=value`, with the value
    encoded and the key kept as it is, and consecutive entries are
    separated by `&`. The value encoder (`URLEncoder.encode` in the source,
    `FormEncoding.Encode` here) is a parameter, so the properties below hold
    for any encoder that meets their stated requirements. */
module UrlParams {
  import opened Wrappers
  import opened Strings
  import opened Requests

  /** The entries whose value is present, in iteration order. */
  function Usable(ps: seq<Param>): (r: seq<(string, string)>)
    ensures |r| <= |ps|
  {
    if |ps| == 0 then []
    else if ps[0].value.None? then Usable(ps[1..])
    else [(ps[0].key, ps[0].value.value)] + Usable(ps[1..])
  }

  /** No entry is usable exactly when every value is null. */
  lemma {:induction false} UsableEmpty(ps: seq<Param>)
    ensures |Usable(ps)| == 0 <==> forall i :: 0 <= i < |ps| ==> ps[i].value.None?
  {
    if |ps| > 0 {
      UsableEmpty(ps[1..]);
      assert forall i :: 1 <= i < |ps| ==> ps[i] == ps[1..][i - 1];
    }
  }

  /** What one usable entry contributes: the key as it is, `=`, and the
      encoded value. */
  function Piece(key: string, value: string, enc: string -> string): string {
    key + "=" + enc(value)
  }

  /** The contribution of every usable entry, in iteration order. */
  function Pieces(ps: seq<Param>, enc: string -> string): (r: seq<string>)
    ensures |r| == |Usable(ps)|
  {
    if |ps| == 0 then []
    else if ps[0].value.None? then Pieces(ps[1..], enc)
    else [Piece(ps[0].key, ps[0].value.value, enc)] + Pieces(ps[1..], enc)
  }

  /** Each usable entry contributes exactly its piece, in order. */
  lemma {:induction false} PiecesOfUsable(ps: seq<Param>, enc: string -> string, i: int)
    requires 0 <= i < |Pieces(ps, enc)|
    ensures Pieces(ps, enc)[i] == Piece(Usable(ps)[i].0, Usable(ps)[i].1, enc)
  {
    if ps[0].value.None? {
      PiecesOfUsable(ps[1..], enc, i);
    } else if i > 0 {
      PiecesOfUsable(ps[1..], enc, i - 1);
    }
  }

  /** The Java loop: `builder` holds the text so far and `sep` is `""`
      until the first entry has been written and `"&"` afterwards. */
  function BuildParams(ps: seq<Param>, sep: string, builder: string, enc: string -> string): string {
    if |ps| == 0 then builder
    else if ps[0].value.None? then BuildParams(ps[1..], sep, builder, enc)
    else BuildParams(ps[1..], "&", builder + sep + Piece(ps[0].key, ps[0].value.value, enc), enc)
  }

  lemma {:induction false} BuildParamsJoins(ps: seq<Param>, sep: string, builder: string, enc: string -> string)
    ensures BuildParams(ps, sep, builder, enc)
         == builder + (if |Pieces(ps, enc)| == 0 then "" else sep + Join(Pieces(ps, enc), '&'))
  {
    if |ps| > 0 {
      if ps[0].value.None? {
        BuildParamsJoins(ps[1..], sep, builder, enc);
        assert Pieces(ps, enc) == Pieces(ps[1..], enc);
      } else {
        var head := Piece(ps[0].key, ps[0].value.value, enc);
        var rest := Pieces(ps[1..], enc);
        BuildParamsJoins(ps[1..], "&", builder + sep + head, enc);
        assert Pieces(ps, enc) == [head] + rest;
        if |rest| == 0 {
          assert Join([head] + rest, '&') == head;
        } else {
          assert ([head] + rest)[1..] == rest;
          assert Join([head] + rest, '&') == head + "&" + Join(rest, '&');
        }
      }
    }
  }

  /** `constructURLParams(params)`: the usable entries' pieces joined by
      single `&`s, in iteration order. */
  function ConstructURLParams(ps: seq<Param>, enc: string -> string): (r: string)
    ensures r == Join(Pieces(ps, enc), '&')
  {
    BuildParamsJoins(ps, "", "", enc);
    BuildParams(ps, "", "", enc)
  }

  /** The parameter string is empty exactly when no entry has a value. */
  lemma ConstructURLParamsEmpty(ps: seq<Param>, enc: string -> string)
    ensures ConstructURLParams(ps, enc) == "" <==> forall i :: 0 <= i < |ps| ==> ps[i].value.None?
  {
    JoinOfPiecesEmpty(ps, enc);
    UsableEmpty(ps);
  }

  /** Every piece holds at least `=`, so the joined text is empty only
      when there are no pieces. */
  lemma JoinOfPiecesEmpty(ps: seq<Param>, enc: string -> string)
    ensures Join(Pieces(ps, enc), '&') == "" <==> |Pieces(ps, enc)| == 0
  {
    if |Pieces(ps, enc)| > 0 {
      JoinKeepsFirst(Pieces(ps, enc));
      PiecesOfUsable(ps, enc, 0);
    }
  }

  lemma JoinKeepsFirst(pieces: seq<string>)
    requires |pieces| > 0
    ensures Join(pieces, '&')[..|pieces[0]|] == pieces[0]
  {
  }

  // ---------------------------------------------------------------------
  // Parsing: the partner of ConstructURLParams

  /** A `key=value` piece read back with the value decoder `dec`: the key
      is the text before the first `=`, the value the decoding of the
      rest. */
  function ParsePiece(p: string, dec: string -> Option<string>): Option<(string, string)> {
    match SplitAtFirst(p, '=')
    case (_, None) => None
    case (k, Some(e)) =>
      match dec(e)
      case None => None
      case Some(v) => Some((k, v))
  }

  function ParsePieces(pieces: seq<string>, dec: string -> Option<string>): Option<seq<(string, string)>> {
    if |pieces| == 0 then Some([])
    else match (ParsePiece(pieces[0], dec), ParsePieces(pieces[1..], dec))
      case (Some(e), Some(es)) => Some([e] + es)
      case _ => None
  }

  /** A query string or form body read back into its entries. */
  function ParseParams(s: string, dec: string -> Option<string>): Option<seq<(string, string)>> {
    if s == "" then Some([]) else ParsePieces(Split(s, '&'), dec)
  }

  /** Keys that can be read back: the key is written unencoded, so it must
      not contain the separators. */
  predicate CleanKeys(ps: seq<Param>) {
    forall i :: 0 <= i < |ps| ==> '&' !in ps[i].key && '=' !in ps[i].key
  }

  /** What the round trip needs of the value encoding: `dec` undoes `enc`,
      and `enc` never produces the entry separator. */
  ghost predicate Invertible(enc: string -> string, dec: string -> Option<string>) {
    forall v :: dec(enc(v)) == Some(v) && '&' !in enc(v)
  }

  lemma {:induction false} ParsePiecesOfPieces(ps: seq<Param>, enc: string -> string, dec: string -> Option<string>)
    requires CleanKeys(ps) && Invertible(enc, dec)
    ensures ParsePieces(Pieces(ps, enc), dec) == Some(Usable(ps))
  {
    if |ps| > 0 {
      ParsePiecesOfPieces(ps[1..], enc, dec);
      if ps[0].value.Some? {
        var k, v := ps[0].key, ps[0].value.value;
        SplitAtFirstPiece(k, '=', enc(v));
        assert Piece(k, v, enc) == k + ['='] + enc(v);
        assert ParsePiece(Piece(k, v, enc), dec) == Some((k, v));
        assert ([Piece(k, v, enc)] + Pieces(ps[1..], enc))[1..] == Pieces(ps[1..], enc);
      }
    }
  }

  /** Every usable key is the key of some entry. */
  lemma {:induction false} UsableKeyFromParams(ps: seq<Param>, i: int)
    requires 0 <= i < |Usable(ps)|
    ensures exists j :: 0 <= j < |ps| && ps[j].key == Usable(ps)[i].0
  {
    if ps[0].value.None? {
      UsableKeyFromParams(ps[1..], i);
      var j :| 0 <= j < |ps[1..]| && ps[1..][j].key == Usable(ps[1..])[i].0;
      assert ps[j + 1].key == Usable(ps)[i].0;
    } else if i > 0 {
      UsableKeyFromParams(ps[1..], i - 1);
      var j :| 0 <= j < |ps[1..]| && ps[1..][j].key == Usable(ps[1..])[i - 1].0;
      assert ps[j + 1].key == Usable(ps)[i].0;
    }
  }

  /** The parameter string loses nothing: reading it back yields exactly
      the usable entries, in iteration order. Hence one `&` separates
      consecutive entries and none leads or trails. */
  lemma {:induction false} ParamsRoundTrip(ps: seq<Param>, enc: string -> string, dec: string -> Option<string>)
    requires CleanKeys(ps) && Invertible(enc, dec)
    ensures ParseParams(ConstructURLParams(ps, enc), dec) == Some(Usable(ps))
  {
    var pieces := Pieces(ps, enc);
    if |pieces| > 0 {
      forall i | 0 <= i < |pieces|
        ensures '&' !in pieces[i]
      {
        var u := Usable(ps)[i];
        UsableKeyFromParams(ps, i);
        PiecesOfUsable(ps, enc, i);
        assert pieces[i] == u.0 + "=" + enc(u.1);
      }
      SplitJoin(pieces, '&');
    }
    ParsePiecesOfPieces(ps, enc, dec);
  }

  /** Entries are written in iteration order: the string for a
      concatenation of entry lists is the two strings joined by `&` (or
      either alone when the other is empty). */
  lemma ConstructURLParamsAppend(ps: seq<Param>, qs: seq<Param>, enc: string -> string)
    ensures var a, b := ConstructURLParams(ps, enc), ConstructURLParams(qs, enc);
            ConstructURLParams(ps + qs, enc)
            == if a == "" then b else if b == "" then a else a + "&" + b
  {
    PiecesAppend(ps, qs, enc);
    JoinAppend(Pieces(ps, enc), Pieces(qs, enc));
    JoinOfPiecesEmpty(ps, enc);
    JoinOfPiecesEmpty(qs, enc);
  }

  lemma {:induction false} PiecesAppend(ps: seq<Param>, qs: seq<Param>, enc: string -> string)
    ensures Pieces(ps + qs, enc) == Pieces(ps, enc) + Pieces(qs, enc)
  {
    if |ps| == 0 {
      assert ps + qs == qs;
    } else {
      var pq := ps + qs;
      assert pq[0] == ps[0] && pq[1..] == ps[1..] + qs;
      var tail := Pieces(ps[1..], enc);
      PiecesAppend(ps[1..], qs, enc);
      if ps[0].value.Some? {
        var head := [Piece(ps[0].key, ps[0].value.value, enc)];
        calc {
          Pieces(pq, enc);
          head + Pieces(ps[1..] + qs, enc);
          head + (tail + Pieces(qs, enc));
          { assert head + (tail + Pieces(qs, enc)) == (head + tail) + Pieces(qs, enc); }
          (head + tail) + Pieces(qs, enc);
        }
      }
    }
  }

  lemma {:induction false} JoinAppend(a: seq<string>, b: seq<string>)
    ensures Join(a + b, '&')
         == if |a| == 0 then Join(b, '&') else if |b| == 0 then Join(a, '&')
            else Join(a, '&') + "&" + Join(b, '&')
  {
    if |a| == 0 {
      assert a + b == b;
    } else if |b| == 0 {
      assert a + b == a;
    } else if |a| > 1 {
      JoinAppend(a[1..], b);
      assert (a + b)[1..] == a[1..] + b;
    }
  }
}

=== FILE: urls.dfy ===
/** URL assembly: `Connector.constructURL`, and the scheme rewrite that
    `Connector.performRequest` applies to the base address with
    `replaceFirst("^https?", protocol.name())`. */
module Urls {
  import opened Wrappers
  import opened Strings
  import opened Requests

  /** `constructURL(baseUrl, params)`. With a parameter string, the
      separator is `?` when the base has no `?`, nothing when the base ends
      with `?`, and `&` otherwise; it is appended even when the parameter
      string is empty. */
  function ConstructURL(base: string, params: Option<string>): (r: string)
    ensures StartsWith(r, base)
    ensures params.None? ==> r == base
    ensures params.Some? ==> '?' in r && |params.value| <= |r| && r[|r| - |params.value|..] == params.value
    ensures params.Some? && '?' !in base ==> r == base + "?" + params.value
    ensures params.Some? && '?' in base && !EndsWith(base, '?') ==> r == base + "&" + params.value
    ensures params.Some? && EndsWith(base, '?') ==> r == base + params.value
  {
    match params
    case None => base
    case Some(p) =>
      var sep := if '?' !in base then "?" else if !EndsWith(base, '?') then "&" else "";
      base + sep + p
  }

  /** The part of a URL before its first `?`. */
  function Address(url: string): string {
    SplitAtFirst(url, '?').0
  }

  /** The part of a URL after its first `?`, if it has one. */
  function Query(url: string): Option<string> {
    SplitAtFirst(url, '?').1
  }

  /** Appending parameters never changes the address part, and the query
      of the result is the parameter string alone when the base had no
      query, and otherwise the base's query followed by `&` (or by nothing
      when the base ended with `?`) and the parameter string. */
  lemma ConstructURLQuery(base: string, p: string)
    ensures var r := ConstructURL(base, Some(p));
            && Address(r) == Address(base)
            && Query(r) == Some(
                 match Query(base)
                 case None => p
                 case Some(q) => if EndsWith(base, '?') then q + p else q + "&" + p)
  {
    var r := ConstructURL(base, Some(p));
    if '?' !in base {
      assert r == base + ['?'] + p;
      SplitAtFirstPiece(base, '?', p);
    } else {
      var (a, q) := (SplitAtFirst(base, '?').0, SplitAtFirst(base, '?').1.value);
      if EndsWith(base, '?') {
        assert r == a + ['?'] + (q + p);
        SplitAtFirstPiece(a, '?', q + p);
      } else {
        assert r == a + ['?'] + (q + "&" + p);
        SplitAtFirstPiece(a, '?', q + "&" + p);
      }
    }
  }

  /** Where the regular expression `^https?` matches: the length of the
      greedy match at position 0, if any. The match is case-sensitive. */
  function SchemeMatch(url: string): (r: Option<nat>)
    ensures r.Some? ==> r.value <= |url| && (r.value == 4 || r.value == 5)
    ensures r == Some(5) <==> StartsWith(url, "https")
    ensures r == Some(4) <==> StartsWith(url, "http") && !StartsWith(url, "https")
    ensures r == None <==> !StartsWith(url, "http")
  {
    if StartsWith(url, "http") then Some(if |url| > 4 && url[4] == 's' then 5 else 4) else None
  }

  /** `baseUrl.replaceFirst("^https?", protocol.name())`: the matched
      scheme, if any, becomes the upper-case protocol name; the rest of the
      address is untouched. */
  function RewriteScheme(base: string, protocol: Protocol): (r: string)
    ensures StartsWith(base, "https") ==> r == protocol.Name() + base[5..]
    ensures StartsWith(base, "http") && !StartsWith(base, "https") ==> r == protocol.Name() + base[4..]
    ensures !StartsWith(base, "http") ==> r == base
  {
    match SchemeMatch(base)
    case None => base
    case Some(n) => protocol.Name() + base[n..]
  }

  /** The replacement is upper case and the pattern is not, so a rewritten
      address is never rewritten again: the first protocol applied stays,
      whatever protocol a later rewrite asks for. */
  lemma RewriteSchemeSettles(base: string, first: Protocol, second: Protocol)
    ensures RewriteScheme(RewriteScheme(base, first), second) == RewriteScheme(base, first)
  {
    var r := RewriteScheme(base, first);
    if StartsWith(base, "http") {
      assert r[0] == 'H';
    }
  }

  /** An address whose scheme is written in upper case keeps it, whatever
      protocol the request declares. */
  lemma UpperCaseSchemeKept(rest: string, protocol: Protocol)
    ensures RewriteScheme("HTTP" + rest, protocol) == "HTTP" + rest
  {
    assert ("HTTP" + rest)[0] == 'H';
  }

  /** A lower-case `http` or `https` scheme is replaced by the declared
      protocol's name, and the text after the scheme is kept. */
  lemma RewriteSchemeWins(rest: string, secure: bool, protocol: Protocol)
    requires secure || !StartsWith(rest, "s")
    ensures RewriteScheme((if secure then "https" else "http") + rest, protocol) == protocol.Name() + rest
  {
    var base := (if secure then "https" else "http") + rest;
    if secure {
      assert base[5..] == rest;
    } else {
      assert base[4..] == rest;
      if |rest| > 0 {
        assert base[4] == rest[0];
        assert rest[..1] == [rest[0]];
      }
    }
  }
}

=== FILE: wrappers.dfy ===
/** Optional values and success/failure results, used in place of Java's
    null references and thrown exceptions. */
module Wrappers {

  /** A value that may be absent (a Java reference that may be null). */
  datatype Option<+T> = None | Some(value: T) {

    /** The value, or `default` when absent. */
    function GetOr(default: T): T {
      match this
      case Some(v) => v
      case None => default
    }
  }

  /** The outcome of an operation that either produces a value or fails. */
  datatype Result<+R, +E> = Success(value: R) | Failure(error: E)
}
